=== FILE: README.md ===
# MaskBloom, modelled in Dafny

`MaskBloom` is a Unity camera image effect. It adds bloom to a rendered frame
in three steps:

- it down-samples the frame and masks the bright regions;
- it blurs the mask at that reduced size, ping-ponging between two pool textures;
- it composites the mask back onto the frame with a Screen or Add blend.

The effect also clamps its settings once per frame in `Update`.

The model treats the GPU as abstract state held by the `MaskBloom` class:

- **Texture table.** A `seq<Texture>` indexed by handle. It holds the host's
  source and destination surfaces and every temporary acquired so far. Each
  entry carries width, height, format, whether it came from the temporary
  pool, and whether it is still live (not yet released).
  `RenderTexture.GetTemporary` appends a fresh live temporary, so the next
  handle is always the table's length. `RenderTexture.ReleaseTemporary`
  marks a live temporary released, and it accepts only live temporaries.
- **Blit log.** Every `Graphics.Blit` appends a (source, target, pass) entry,
  with no pass for a plain copy. A blit accepts only two live, distinct
  textures. A composite blit (pass 4 or 5) also samples the `_BlurTex`
  uniform, so it additionally needs that uniform bound to a live texture
  other than its target. This discipline is proved, not assumed: no texture
  is released twice, used after release (as a blit's source, target or
  bound blur texture), or both read and written by one blit.
- **The `_BlurTex` uniform.** It is recorded as the field `blurTex`.

Each method of the effect is proved against a pure specification in module
`BloomSpec`:

- `DownSampleLog` / `DownSampleTemporaries` for `DownSample`;
- `BlurLog` for `Blur`;
- `FrameLog` / `FrameTemporaries` for `OnRenderImage`.

Lemmas then state what those command sequences guarantee: exact pass
sequences, the ping-pong discipline, dimension arithmetic, and that every
temporary is released.

Files:

- `engine.dfy` (module `Engine`) holds the engine's values: handles,
  textures, blits, `Mathf.Max` and `Mathf.Clamp`, the `>>` shift, and the
  live temporaries of a texture table.
- `bloom_spec.dfy` (module `BloomSpec`) holds the shader pass numbers, the
  blend-mode switch, the specification functions and their lemmas.
- `mask_bloom.dfy` (module `MaskBloom`) holds the class: its configuration
  fields, the GPU state, the engine calls, and `Update`, `Blur`,
  `DownSample` and `OnRenderImage` with their loop invariants.

Two details of the code the model keeps:

- The first step of `DownSample` is a plain `Graphics.Blit(src, dst)` with no
  material (MaskBloom.cs:96).
- Dimensions have no 1 px floor, so `w >> lod` reaches 0 when `lod` is large.

## Model

| member | source | states |
|---|---|---|
| `MaskBloom.MaskBloom.constructor` | Assets/Packages/MaskBloom/Scripts/MaskBloom.cs:14-25 | The serialized defaults: blend mode Screen, 3 blur iterations, 2 down-sample levels, debug off; no temporary is live and nothing has been blitted |
| `MaskBloom.MaskBloom.Update` | Assets/Packages/MaskBloom/Scripts/MaskBloom.cs:31-33 | Afterwards `blurIterations >= 1` and `blurDownSample >= 0`; each is `Mathf.Max` of its old value and its floor; values already in range are unchanged, so a second `Update` changes nothing; no other field changes |
| `Engine.Max` | Assets/Packages/MaskBloom/Scripts/MaskBloom.cs:32-33 | `Mathf.Max`: the result is one of the two arguments and at least both of them |
| `Engine.Clamp` | Assets/Packages/MaskBloom/Scripts/MaskBloom.cs:74 | `Mathf.Clamp`: with min <= max the result lies in [min, max]; it equals the value when the value is in range, min when the value is below min, and max when the value is at least min and above max |
| `BloomSpec.Levels` | Assets/Packages/MaskBloom/Scripts/MaskBloom.cs:98 | The number of halvings the loop runs: `lod` when it is non-negative, zero when it is negative |
| `MaskBloom.MaskBloom.GetTemporary` | Assets/Packages/MaskBloom/Scripts/MaskBloom.cs:72-73 | `RenderTexture.GetTemporary`: appends one live temporary with the requested width, height and format and returns its fresh handle, the old table length; no existing entry changes |
| `MaskBloom.MaskBloom.ReleaseTemporary` | Assets/Packages/MaskBloom/Scripts/MaskBloom.cs:89-90 | `RenderTexture.ReleaseTemporary`: callable only on a present, live temporary, so every caller is proved never to release twice or release a host surface; afterwards only that entry changes, and it is marked released |
| `MaskBloom.MaskBloom.Blit` | Assets/Packages/MaskBloom/Scripts/MaskBloom.cs:51-64 | `Graphics.Blit`: callable only with two live, distinct textures; a composite pass (4 or 5) is callable only while `_BlurTex` is bound to a live texture other than the target. So every caller is proved never to use a released texture, as source, target or sampled blur texture, and never to read and write the same one. The log grows by exactly one entry with the given source, target and pass |
| `BloomSpec.CompositePass` | Assets/Packages/MaskBloom/Scripts/MaskBloom.cs:53-66 | The switch picks pass 5 exactly when the blend mode is Add, and pass 4 exactly when it is anything else (Screen or an undeclared enum value) |
| `MaskBloom.MaskBloom.Blur` | Assets/Packages/MaskBloom/Scripts/MaskBloom.cs:71-91 | Appends exactly two temporaries with `src`'s width, height and format, both released by the end, so the live temporaries are unchanged; the log grows by exactly `BlurLog(src, tmp0, tmp1, clamp(n, 0, 10))`; proved through the nested loops' invariants on the buffer swap |
| `BloomSpec.BlurPassesAt` | Assets/Packages/MaskBloom/Scripts/MaskBloom.cs:77-86 | The k-th shader blit of the ping-pong is the horizontal pass from the first buffer into the second when k is even, and the vertical pass back from the second into the first when k is odd |
| `BloomSpec.BlurLogSequence` | Assets/Packages/MaskBloom/Scripts/MaskBloom.cs:74-87 | `Blur`'s log has exactly 2·iterations + 2 blits: a plain copy src→tmp0 first, a plain copy tmp0→src last, and shader blits in exactly the 2·iterations positions between them, with passes 2, 3, 2, 3, … |
| `BloomSpec.BlurLogDiscipline` | Assets/Packages/MaskBloom/Scripts/MaskBloom.cs:76-87 | With distinct buffers: no blit reads and writes the same texture; every blit reads the texture the previous one wrote, so the copy back reads the last-written buffer; every shader pass runs between the two temporaries and never touches `src` |
| `MaskBloom.MaskBloom.DownSample` | Assets/Packages/MaskBloom/Scripts/MaskBloom.cs:93-111 | Appends exactly `DownSampleTemporaries(src, max(lod, 0))` to the table; the live temporaries grow by exactly the returned mask; the log grows by exactly `DownSampleLog`; each halving acquires `dst >> 1` in both dimensions (proved by the loop invariant) |
| `BloomSpec.HalvingsAt` | Assets/Packages/MaskBloom/Scripts/MaskBloom.cs:98-104 | The k-th halving blit runs pass 0 from the k-th acquired handle into the (k+1)-th |
| `BloomSpec.DownSampleLogSequence` | Assets/Packages/MaskBloom/Scripts/MaskBloom.cs:96-108 | `DownSample`'s log is one plain copy src→first temporary, then `lod` pass-0 blits each from the previous result into the next fresh handle, then exactly one pass-1 blit into the returned mask; with `src` not a fresh handle, nothing aliases and each blit reads what the previous one wrote |
| `BloomSpec.ReleasedAt` | Assets/Packages/MaskBloom/Scripts/MaskBloom.cs:99-102 | The k-th temporary released by the halving loop is `src` shifted right by k in both dimensions, in `src`'s format |
| `BloomSpec.DownSampleTemporariesFacts` | Assets/Packages/MaskBloom/Scripts/MaskBloom.cs:94-110 | `DownSample` acquires `n + 2` temporaries, where `n = max(lod, 0)` is the number of halvings, all in `src`'s format; all are released except the last, the mask; the k-th has `src`'s dimensions `>> k`; the mask's dimensions are `floor(dim / 2^n)` |
| `Engine.ShiftRightIsFloorDivision` | Assets/Packages/MaskBloom/Scripts/MaskBloom.cs:99 | Shifting right by one bit k times, as the loop does, equals the arithmetic shift by k bits: the floor of x / 2^k, for every x, negative included |
| `Engine.AppendReleased` | Assets/Packages/MaskBloom/Scripts/MaskBloom.cs:89-90 | Adding only released temporaries to the table leaves the set of live temporaries exactly as it was |
| `Engine.AppendReleasedThenLive` | Assets/Packages/MaskBloom/Scripts/MaskBloom.cs:106-110 | Adding released temporaries and then one live temporary adds exactly that temporary's handle to the live set |
| `MaskBloom.MaskBloom.OnRenderImage` | Assets/Packages/MaskBloom/Scripts/MaskBloom.cs:37-69 | On both exit paths the live temporaries are exactly those live before the call, so zero before means zero after. The table grows by exactly `FrameTemporaries`. The log grows by exactly `FrameLog` with the configured levels and the iteration count clamped to [0, 10]. The blur texture is bound to the mask exactly when not in debug mode; the composite blit's precondition makes that binding happen before the blit and the mask's release after it |
| `BloomSpec.FrameLogOutcome` | Assets/Packages/MaskBloom/Scripts/MaskBloom.cs:40-66 | In one frame no blit aliases, `dst` is written exactly once, by the last blit, and no earlier blit runs a composite pass (4 or 5). In debug mode that blit is a plain copy of the blurred mask, every blit reads what the previous one wrote, and no composite pass runs at all. Otherwise it is src→dst with pass 5 for Add and pass 4 for Screen or any other value |
| `BloomSpec.FrameTemporariesReleased` | Assets/Packages/MaskBloom/Scripts/MaskBloom.cs:40-68 | A frame acquires `n + 4` temporaries, where `n = max(blurDownSample, 0)`, and every one of them is released by the end of the frame |
| `BloomSpec.FrameKeepsLiveTemporaries` | Assets/Packages/MaskBloom/Scripts/MaskBloom.cs:40-68 | Whatever texture table a frame starts from, appending that frame's temporaries leaves its set of live temporaries exactly as it was |

## Left out

- `bloomIntensity` is left out, with its clamp in `Update` (MaskBloom.cs:22-23, 34) and the `_Intensity` uniform (MaskBloom.cs:50). They are single-precision floats and do not affect the pass sequence or the pool.
- `Start` is left out (MaskBloom.cs:27-29): building the material from the shader, the shader asset, `RequireComponent`, and the serialized-field plumbing. The model assumes a material exists.
- The shader maths is left out: mask threshold, blur kernel, Screen and Add formulas. Passes are opaque labels in the log, and pixel contents are not modelled.
- `filterMode` assignments and `DiscardContents` (MaskBloom.cs:79-80, 95, 100, 107) are left out. They are sampling and performance hints and change neither the pool nor the blit sequence.
- Unity's pool may recycle a released texture for a later request. The model always hands out a fresh handle, so handle identity across acquisitions is not modelled.
- Execution on the device is not modelled. Blits are sequential log appends in submission order.
- Widths, heights and loop counters are unbounded integers. `>> 1` is modelled as floor division by 2, which equals C#'s arithmetic shift for every 32-bit value. No 32-bit wrap-around can occur: the loop counters are bounded by `lod` and by 10, and widths and heights only shrink.
- `GetTemporary` with a zero-sized request is not modelled as an engine failure. The model records the texture with the dimensions the code computes.
- `MaskBloom.MaskBloom.OnRenderImage` requires a live `src` and `dst` that are distinct. The host supplies them that way. A null `dst` (render to screen) is modelled as an ordinary host surface.

=== FILE: bloom_spec.dfy ===
/**
 What the bloom effect sends to the GPU in one call, as pure functions of the
 handles it is given and the handles the temporary pool hands out, together
 with the properties of those command sequences: which shader pass runs
 where, that no pass reads and writes one texture, and that every pass reads
 what the previous one wrote.
 */
module BloomSpec {
  import opened Engine

  // The six passes of the MaskBloom shader.
  const DownSamplePass := 0
  const MaskPass := 1
  const BlurHorizontalPass := 2
  const BlurVerticalPass := 3
  const ScreenPass := 4
  const AddPass := 5

  /** The upper bound `Blur` puts on its iteration count. */
  const MaxBlurIterations := 10

  /** `MaskBloom.BloomType`.  A C# enum field holds any `int`; the declared
      members are Screen = 0 and Add = 1. */
  type BloomType = int
  const Screen: BloomType := 0
  const Add: BloomType := 1

  /** The composite pass chosen by the `switch` on the blend mode: Add selects
      the additive pass, Screen and every undeclared value the screen pass. */
  function CompositePass(t: BloomType): (pass: int)
    ensures pass == AddPass <==> t == Add
    ensures pass == ScreenPass <==> t != Add
  {
    if t == Screen then ScreenPass
    else if t == Add then AddPass
    else ScreenPass
  }

  /** How many times `for (var i = 0; i < lod; i++)` runs its body. */
  function Levels(lod: int): (n: nat)
    ensures lod >= 0 ==> n == lod
    ensures lod <= 0 ==> n == 0
  {
    Max(0, lod)
  }

  /** One blur iteration: the horizontal pass from `a` into `b`, then, the
      buffers' roles swapped, the vertical pass from `b` back into `a`. */
  function BlurRound(a: Handle, b: Handle): seq<BlitCall>
  {
    [BlitCall(a, b, Some(BlurHorizontalPass)), BlitCall(b, a, Some(BlurVerticalPass))]
  }

  /** The shader blits of `rounds` blur iterations on the buffers `a`, `b`. */
  function BlurPasses(a: Handle, b: Handle, rounds: nat): (s: seq<BlitCall>)
    ensures |s| == 2 * rounds
  {
    if rounds == 0 then [] else BlurPasses(a, b, rounds - 1) + BlurRound(a, b)
  }

  /** Everything `Blur(src, n)` blits when the pool hands out `a` and then `b`
      and the clamped iteration count is `rounds`. */
  function BlurLog(src: Handle, a: Handle, b: Handle, rounds: nat): seq<BlitCall>
  {
    [BlitCall(src, a, None)] + BlurPasses(a, b, rounds) + [BlitCall(a, src, None)]
  }

  /** The pass-0 blits of `n` halvings, the k-th reading `base + k` and writing
      the freshly acquired `base + k + 1`. */
  function Halvings(base: Handle, n: nat): (s: seq<BlitCall>)
    ensures |s| == n
  {
    if n == 0 then [] else Halvings(base, n - 1) + [BlitCall(base + n - 1, base + n, Some(DownSamplePass))]
  }

  /** Everything `DownSample(src, lod)` blits when the pool hands out the
      handles base, base + 1, ... in order and the loop runs n times. */
  function DownSampleLog(src: Handle, base: Handle, n: nat): seq<BlitCall>
  {
    [BlitCall(src, base, None)] + Halvings(base, n) + [BlitCall(base + n, base + n + 1, Some(MaskPass))]
  }

  /** The k-th temporary `DownSample` acquires from a source texture `src`:
      `src` shifted right by k in both dimensions, in `src`'s format. */
  function Rung(src: Texture, k: nat, live: bool): Texture
  {
    Texture(ShiftRight(src.width, k), ShiftRight(src.height, k), src.format, true, live)
  }

  /** The first k temporaries `DownSample` acquires, each released. */
  function Released(src: Texture, k: nat): (s: seq<Texture>)
    ensures |s| == k
  {
    if k == 0 then [] else Released(src, k - 1) + [Rung(src, k - 1, false)]
  }

  /** What `DownSample` adds to the texture table: n + 2 temporaries, all
      released but the last, the mask, which has the size of the last
      halving. */
  function DownSampleTemporaries(src: Texture, n: nat): seq<Texture>
  {
    Released(src, n + 1) + [Rung(src, n, true)]
  }

  /** What one frame adds to the texture table: the temporaries of
      `DownSample`, the mask now released too, and the two released buffers
      of `Blur`, which have the mask's size and format. */
  function FrameTemporaries(src: Texture, n: nat): seq<Texture>
  {
    Released(src, n + 1) + [Rung(src, n, false), Rung(src, n, false), Rung(src, n, false)]
  }

  /** The handle `DownSample` returns: the last of its n + 2 acquisitions. */
  function MaskHandle(base: Handle, n: nat): Handle
  {
    base + n + 1
  }

  /** Everything one `OnRenderImage(src, dst)` blits. */
  function FrameLog(src: Handle, dst: Handle, base: Handle, n: nat, rounds: nat, debug: bool, t: BloomType): seq<BlitCall>
  {
    var mask := MaskHandle(base, n);
    DownSampleLog(src, base, n)
    + BlurLog(mask, mask + 1, mask + 2, rounds)
    + [if debug then BlitCall(mask, dst, None) else BlitCall(src, dst, Some(CompositePass(t)))]
  }

  /** Whether a blit runs a shader pass (as opposed to a plain copy). */
  predicate IsShaderBlit(b: BlitCall)
  {
    b.pass.Some?
  }

  /** No blit in `s` reads and writes the same texture. */
  predicate NoAliasing(s: seq<BlitCall>)
  {
    forall k :: 0 <= k < |s| ==> s[k].source != s[k].target
  }

  /** Every blit in `s` after the first reads the texture the one before it
      wrote. */
  predicate Chained(s: seq<BlitCall>)
  {
    forall k :: 0 < k < |s| ==> s[k].source == s[k - 1].target
  }

  // ---------------------------------------------------------------------
  // Blur

  /** The k-th shader blit of the ping-pong: even positions run the horizontal
      pass from `a` into `b`, odd positions the vertical pass from `b` into `a`. */
  lemma {:induction false} BlurPassesAt(a: Handle, b: Handle, rounds: nat, k: nat)
    requires k < 2 * rounds
    ensures BlurPasses(a, b, rounds)[k] ==
      if k % 2 == 0 then BlitCall(a, b, Some(BlurHorizontalPass)) else BlitCall(b, a, Some(BlurVerticalPass))
  {
    if k < 2 * (rounds - 1) {
      BlurPassesAt(a, b, rounds - 1, k);
    }
  }

  /** The blit log of `Blur` on two distinct fresh buffers: a plain copy into
      the first buffer, then exactly 2 * rounds shader blits alternating the
      horizontal and the vertical pass, then a plain copy back into `src`. */
  lemma BlurLogSequence(src: Handle, a: Handle, b: Handle, rounds: nat)
    ensures var s := BlurLog(src, a, b, rounds);
      && |s| == 2 * rounds + 2
      && s[0] == BlitCall(src, a, None)
      && s[|s| - 1] == BlitCall(a, src, None)
      && (forall k :: 0 <= k < |s| ==> (IsShaderBlit(s[k]) <==> 1 <= k <= 2 * rounds))
      && (forall k :: 1 <= k <= 2 * rounds ==>
            s[k].pass == Some(if k % 2 == 1 then BlurHorizontalPass else BlurVerticalPass))
  {
    var s := BlurLog(src, a, b, rounds);
    forall k | 1 <= k <= 2 * rounds
      ensures s[k] == if (k - 1) % 2 == 0 then BlitCall(a, b, Some(BlurHorizontalPass)) else BlitCall(b, a, Some(BlurVerticalPass))
    {
      BlurPassesAt(a, b, rounds, k - 1);
    }
  }

  /** Ping-pong discipline: with `src`, `a` and `b` distinct, no blit of
      `Blur` aliases, every blit reads what the previous one wrote (so the
      copy back reads the last-written buffer), and `src` is never the source
      or target of a shader pass, whose buffers are always `a` and `b`. */
  lemma BlurLogDiscipline(src: Handle, a: Handle, b: Handle, rounds: nat)
    requires src != a && src != b && a != b
    ensures NoAliasing(BlurLog(src, a, b, rounds))
    ensures Chained(BlurLog(src, a, b, rounds))
    ensures var s := BlurLog(src, a, b, rounds);
      forall k :: 0 <= k < |s| && IsShaderBlit(s[k]) ==>
        {s[k].source, s[k].target} == {a, b} && s[k].source != src && s[k].target != src
  {
    var s := BlurLog(src, a, b, rounds);
    BlurLogSequence(src, a, b, rounds);
    forall k | 1 <= k <= 2 * rounds
      ensures s[k] == if (k - 1) % 2 == 0 then BlitCall(a, b, Some(BlurHorizontalPass)) else BlitCall(b, a, Some(BlurVerticalPass))
    {
      BlurPassesAt(a, b, rounds, k - 1);
    }
    forall k | 0 < k < |s|
      ensures s[k].source == s[k - 1].target
    {
      if k == |s| - 1 && rounds > 0 {
        assert (k - 2) % 2 == 1;
      }
    }
  }

  // ---------------------------------------------------------------------
  // DownSample

  /** The k-th halving blit runs pass 0 from `base + k` into `base + k + 1`. */
  lemma {:induction false} HalvingsAt(base: Handle, n: nat, k: nat)
    requires k < n
    ensures Halvings(base, n)[k] == BlitCall(base + k, base + k + 1, Some(DownSamplePass))
  {
    if k < n - 1 {
      HalvingsAt(base, n - 1, k);
    }
  }

  /** The blit log of `DownSample`: one plain copy of `src`, then n pass-0
      blits each from the previous result into the next fresh handle, then
      exactly one pass-1 blit into the returned mask handle.  When `src` is
      not one of the fresh handles, no blit aliases and every blit reads what
      the previous one wrote. */
  lemma DownSampleLogSequence(src: Handle, base: Handle, n: nat)
    ensures var s := DownSampleLog(src, base, n);
      && |s| == n + 2
      && s[0] == BlitCall(src, base, None)
      && (forall k :: 1 <= k <= n ==> s[k] == BlitCall(base + k - 1, base + k, Some(DownSamplePass)))
      && s[n + 1] == BlitCall(base + n, MaskHandle(base, n), Some(MaskPass))
    ensures src < base ==> NoAliasing(DownSampleLog(src, base, n)) && Chained(DownSampleLog(src, base, n))
  {
    var s := DownSampleLog(src, base, n);
    forall k | 1 <= k <= n
      ensures s[k] == BlitCall(base + k - 1, base + k, Some(DownSamplePass))
    {
      HalvingsAt(base, n, k - 1);
    }
  }

  /** The k-th released temporary is `src` shifted right by k. */
  lemma {:induction false} ReleasedAt(src: Texture, k: nat, j: nat)
    requires j < k
    ensures Released(src, k)[j] == Rung(src, j, false)
  {
    if j < k - 1 {
      ReleasedAt(src, k - 1, j);
    }
  }

  /** `DownSample` acquires n + 2 temporaries, all of `src`'s format: the
      k-th (k <= n) has `src`'s dimensions shifted right by k and is
      released; the last is the live mask, whose dimensions are the floor of
      `src`'s divided by 2^n. */
  lemma DownSampleTemporariesFacts(src: Texture, n: nat)
    ensures var t := DownSampleTemporaries(src, n);
      && |t| == n + 2
      && (forall k :: 0 <= k < |t| ==> t[k].temporary && t[k].format == src.format)
      && (forall k :: 0 <= k < |t| ==> (t[k].live <==> k == n + 1))
      && (forall k :: 0 <= k <= n ==>
            t[k].width == ShiftRight(src.width, k) && t[k].height == ShiftRight(src.height, k))
      && t[n + 1].width == src.width / Pow2(n) && t[n + 1].height == src.height / Pow2(n)
  {
    var t := DownSampleTemporaries(src, n);
    forall k | 0 <= k <= n
      ensures t[k] == Rung(src, k, false)
    {
      ReleasedAt(src, n + 1, k);
    }
    ShiftRightIsFloorDivision(src.width, n);
    ShiftRightIsFloorDivision(src.height, n);
  }

  /** Every temporary acquired during a frame is released by its end. */
  lemma FrameTemporariesReleased(src: Texture, n: nat)
    ensures var t := FrameTemporaries(src, n);
      && |t| == n + 4
      && forall k :: 0 <= k < |t| ==> t[k].temporary && !t[k].live
  {
    var t := FrameTemporaries(src, n);
    forall k | 0 <= k <= n
      ensures t[k] == Rung(src, k, false)
    {
      ReleasedAt(src, n + 1, k);
    }
  }

  /** The table a frame leaves: `DownSample`'s temporaries, `Blur`'s two
      released copies of the mask, and the mask released in turn. */
  lemma FrameTable(table: TextureTable, src: Texture, n: nat)
    ensures var m := |table| + n + 1;
      var t := table + DownSampleTemporaries(src, n);
      var t2 := t + [t[m].(temporary := true, live := false), t[m].(temporary := true, live := false)];
      t2[m := t2[m].(live := false)] == table + FrameTemporaries(src, n)
  {
  }

  /** So a frame leaves the live temporaries of any table as they were. */
  lemma FrameKeepsLiveTemporaries(table: TextureTable, src: Texture, n: nat)
    ensures LiveTemporaries(table + FrameTemporaries(src, n)) == LiveTemporaries(table)
  {
    FrameTemporariesReleased(src, n);
    AppendReleased(table, FrameTemporaries(src, n));
  }

  // ---------------------------------------------------------------------
  // One frame

  /** One frame's blits.  Whatever the configuration, no blit aliases,
      `dst` is written exactly once, by the last blit, and no blit before the
      last runs a composite pass.  On the debug path that blit is a plain copy
      of the blurred mask, every blit reads what the previous one wrote (so
      `dst` receives what `Blur` wrote last) and no composite pass runs at
      all; otherwise it is the composite pass from `src`, pass 5 for Add and
      pass 4 for Screen and every other blend mode. */
  lemma FrameLogOutcome(src: Handle, dst: Handle, base: Handle, n: nat, rounds: nat, debug: bool, t: BloomType)
    requires src < base && dst < base && src != dst
    ensures var s := FrameLog(src, dst, base, n, rounds, debug, t);
      && |s| == n + 2 * rounds + 5
      && NoAliasing(s)
      && (forall k :: 0 <= k < |s| - 1 ==> s[k].target != dst)
      && (forall k :: 0 <= k < |s| - 1 ==> s[k].pass != Some(ScreenPass) && s[k].pass != Some(AddPass))
      && (debug ==> s[|s| - 1] == BlitCall(MaskHandle(base, n), dst, None))
      && (debug ==> Chained(s))
      && (debug ==> forall k :: 0 <= k < |s| ==> s[k].pass != Some(ScreenPass) && s[k].pass != Some(AddPass))
      && (!debug ==> s[|s| - 1] == BlitCall(src, dst, Some(if t == Add then AddPass else ScreenPass)))
  {
    var mask := MaskHandle(base, n);
    var d, b := DownSampleLog(src, base, n), BlurLog(mask, mask + 1, mask + 2, rounds);
    var s := FrameLog(src, dst, base, n, rounds, debug, t);
    DownSampleLogSequence(src, base, n);
    BlurLogSequence(mask, mask + 1, mask + 2, rounds);
    BlurLogDiscipline(mask, mask + 1, mask + 2, rounds);
    forall k | 0 <= k < |d|
      ensures d[k].target != dst && d[k].pass != Some(ScreenPass) && d[k].pass != Some(AddPass)
    {
    }
    forall k | 0 <= k < |b|
      ensures b[k].target != dst && b[k].source != b[k].target
      ensures b[k].pass != Some(ScreenPass) && b[k].pass != Some(AddPass)
    {
      if 1 <= k <= 2 * rounds {
        BlurPassesAt(mask + 1, mask + 2, rounds, k - 1);
      }
    }
    assert s == d + b + [s[|s| - 1]];
    if debug {
      forall k | 0 < k < |s|
        ensures s[k].source == s[k - 1].target
      {
        if k < |d| {
          assert s[k] == d[k] && s[k - 1] == d[k - 1];
        } else if k == |d| {
          assert s[k] == b[0] && s[k - 1] == d[|d| - 1];
        } else if k < |d| + |b| {
          assert s[k] == b[k - |d|] && s[k - 1] == b[k - |d| - 1];
        } else {
          assert s[k - 1] == b[|b| - 1];
        }
      }
    }
  }
}

=== FILE: engine.dfy ===
/**
 The part of the host engine that the bloom effect talks to, reduced to
 values: render textures are opaque handles into a texture table, and every
 `Graphics.Blit` becomes one entry of a blit log.  Pixel contents are not
 modelled; a shader pass is only a label in the log.
 */
module Engine {

  /** A render texture, as the effect sees it: an index into the texture table. */
  type Handle = nat

  datatype Option<+T> = None | Some(value: T)

  /** The pixel format of a render texture; the effect only copies it around. */
  datatype Format = Format(code: int)

  /** One entry of the texture table.  `temporary` marks textures that came
      from the temporary pool (as opposed to the host's source and destination
      surfaces); `live` becomes false when a temporary is released. */
  datatype Texture = Texture(width: int, height: int, format: Format, temporary: bool, live: bool)

  /** One `Graphics.Blit(source, target[, material, pass])` call; `pass` is
      `None` for a plain copy without a material. */
  datatype BlitCall = BlitCall(source: Handle, target: Handle, pass: Option<int>)

  /** `Mathf.Max` on integers. */
  function Max(a: int, b: int): (r: int)
    ensures r >= a && r >= b
    ensures r == a || r == b
  {
    if a >= b then a else b
  }

  /** `Mathf.Clamp` on integers: the value if it lies in [min, max], otherwise
      the bound on the side where it lies. */
  function Clamp(value: int, min: int, max: int): (r: int)
    ensures min <= max ==> min <= r <= max
    ensures min <= value <= max ==> r == value
    ensures r == value || r == min || r == max
    ensures value < min ==> r == min
    ensures min <= value && value > max ==> r == max
  {
    if value < min then min else if value > max then max else value
  }

  function Pow2(k: nat): (p: nat)
    ensures p >= 1
  {
    if k == 0 then 1 else 2 * Pow2(k - 1)
  }

  /** Arithmetic shift right by k bits, as k shifts by one bit: `x >> 1` on
      a C# `int` is the floor of x / 2, and Dafny's division by a positive
      divisor rounds toward negative infinity, exactly like that shift. */
  function ShiftRight(x: int, k: nat): int
  {
    if k == 0 then x else ShiftRight(x, k - 1) / 2
  }

  lemma ProductAtLeast(d: nat, e: nat)
    requires e >= 1
    ensures d * e >= d
  {
  }

  /** Division by d > 0 is determined by its quotient-remainder equation. */
  lemma DivisionUnique(x: int, d: nat, q: int, r: int)
    requires d > 0 && x == d * q + r && 0 <= r < d
    ensures x / d == q
  {
    var q', r' := x / d, x % d;
    assert x == d * q' + r' && 0 <= r' < d;
    assert d * (q - q') == r' - r;
    if q' < q {
      ProductAtLeast(d, q - q');
      assert false;
    } else if q' > q {
      ProductAtLeast(d, q' - q);
      assert false;
    }
  }

  /** Halving the floor of x / 2^k gives the floor of x / 2^(k+1). */
  lemma HalveQuotient(x: int, k: nat)
    ensures (x / Pow2(k)) / 2 == x / Pow2(k + 1)
  {
    var p := Pow2(k);
    var q, r := x / p, x % p;
    var q2, r2 := q / 2, q % 2;
    assert Pow2(k + 1) == 2 * p;
    assert x == p * q + r;
    assert q == 2 * q2 + r2;
    calc {
      x;
      p * (2 * q2 + r2) + r;
      (2 * p) * q2 + (p * r2 + r);
    }
    assert 0 <= p * r2 + r < 2 * p by {
      assert r2 == 0 || r2 == 1;
    }
    DivisionUnique(x, 2 * p, q2, p * r2 + r);
  }

  /** Shifting right by one bit k times is the arithmetic shift by k bits
      (`x >> k` for k < 32): the floor of x / 2^k. */
  lemma {:induction false} ShiftRightIsFloorDivision(x: int, k: nat)
    ensures ShiftRight(x, k) == x / Pow2(k)
  {
    if k > 0 {
      ShiftRightIsFloorDivision(x, k - 1);
      HalveQuotient(x, k - 1);
    }
  }

  /** The texture table, indexed by handle: the host's surfaces and every
      temporary acquired so far, released ones included. */
  type TextureTable = seq<Texture>

  /** The temporaries acquired from the pool and not yet released. */
  ghost function LiveTemporaries(table: TextureTable): set<Handle>
  {
    set h: Handle | h < |table| && table[h].temporary && table[h].live
  }

  /** Appending textures none of which is live leaves the live temporaries as
      they were. */
  lemma AppendReleased(table: TextureTable, added: TextureTable)
    requires forall k :: 0 <= k < |added| ==> !added[k].live
    ensures LiveTemporaries(table + added) == LiveTemporaries(table)
  {
    var t := table + added;
    forall h: Handle | h < |t|
      ensures (t[h].temporary && t[h].live) <==> (h < |table| && table[h].temporary && table[h].live)
    {
      if h >= |table| {
        assert t[h] == added[h - |table|];
      }
    }
  }

  /** Appending released textures followed by one live temporary adds exactly
      that temporary's handle to the live temporaries. */
  lemma AppendReleasedThenLive(table: TextureTable, released: TextureTable, last: Texture)
    requires forall k :: 0 <= k < |released| ==> !released[k].live
    requires last.temporary && last.live
    ensures LiveTemporaries(table + released + [last]) == LiveTemporaries(table) + {|table| + |released|}
  {
    var t := table + released + [last];
    forall h: Handle | h < |t|
      ensures (t[h].temporary && t[h].live) <==>
              ((h < |table| && table[h].temporary && table[h].live) || h == |table| + |released|)
    {
      if |table| <= h < |table| + |released| {
        assert t[h] == released[h - |table|];
      }
    }
  }
}

=== FILE: mask_bloom.dfy ===
/**
 The `MaskBloom` image effect: its serialized configuration, the per-frame
 clamping in `Update`, and the three steps of `OnRenderImage` -- down-sample
 with a mask, ping-pong blur, composite -- run against an abstract GPU.  The
 GPU is the texture table (host surfaces and pool temporaries), the counter
 the temporary pool draws fresh handles from, the blit log and the material's
 blur-texture uniform.
 */
module MaskBloom {
  import opened Engine
  import opened BloomSpec

  class MaskBloom {
    // Serialized configuration.
    var bloomType: BloomType
    var blurIterations: int
    var blurDownSample: int
    var debug: bool

    // The GPU, as the effect sees it.  The pool hands out the next handle,
    // |textures|, on every acquisition.
    var textures: TextureTable
    var log: seq<BlitCall>
    var blurTex: Option<Handle>

    /** A texture that may be blitted: present and not released. */
    ghost predicate IsLive(h: Handle)
      reads this
    {
      h < |textures| && textures[h].live
    }

    /** The effect with its serialized defaults, on a GPU that holds only the
        host's surfaces. */
    constructor (surfaces: TextureTable)
      requires forall k :: 0 <= k < |surfaces| ==> !surfaces[k].temporary
      ensures LiveTemporaries(textures) == {}
      ensures textures == surfaces && log == [] && blurTex == None
      ensures bloomType == Screen && blurIterations == 3 && blurDownSample == 2 && !debug
    {
      bloomType := Screen;
      blurIterations, blurDownSample := 3, 2;
      debug := false;
      textures, log, blurTex := surfaces, [], None;
    }

    /** Per-frame clamping of the configuration.  Afterwards the iteration
        count is at least 1 and the down-sample level at least 0; values
        already in range are left as they are, so a second `Update` changes
        nothing. */
    method Update()
      modifies this`blurIterations, this`blurDownSample
      ensures blurIterations == Max(1, old(blurIterations))
      ensures blurDownSample == Max(0, old(blurDownSample))
      ensures blurIterations >= 1 && blurDownSample >= 0
      ensures old(blurIterations) >= 1 ==> blurIterations == old(blurIterations)
      ensures old(blurDownSample) >= 0 ==> blurDownSample == old(blurDownSample)
    {
      blurIterations := Max(1, blurIterations);
      blurDownSample := Max(0, blurDownSample);
    }

    // ---------------------------------------------------------------------
    // The engine calls the effect makes

    /** `RenderTexture.GetTemporary(width, height, 0, format)`: a fresh live
        temporary. */
    method GetTemporary(width: int, height: int, format: Format) returns (t: Handle)
      modifies this`textures
      ensures t == |old(textures)|
      ensures textures == old(textures) + [Texture(width, height, format, true, true)]
    {
      t := |textures|;
      textures := textures + [Texture(width, height, format, true, true)];
    }

    /** `RenderTexture.ReleaseTemporary(t)`: only a live temporary may be
        released, so no temporary is released twice. */
    method ReleaseTemporary(t: Handle)
      requires t < |textures| && textures[t].temporary && textures[t].live
      modifies this`textures
      ensures textures == old(textures)[t := old(textures)[t].(live := false)]
    {
      textures := textures[t := textures[t].(live := false)];
    }

    /** `Graphics.Blit`: both textures are live and distinct.  The composite
        passes also sample the bound blur texture, so for them that texture
        must be bound, live and distinct from the target. */
    method Blit(source: Handle, target: Handle, pass: Option<int>)
      requires IsLive(source) && IsLive(target) && source != target
      requires pass == Some(ScreenPass) || pass == Some(AddPass) ==>
                 blurTex.Some? && IsLive(blurTex.value) && blurTex.value != target
      modifies this`log
      ensures log == old(log) + [BlitCall(source, target, pass)]
    {
      log := log + [BlitCall(source, target, pass)];
    }

    // ---------------------------------------------------------------------
    // The effect

    /** Blurs `src` in place.  Two temporaries the size and format of `src`
        are acquired and both released whatever `nIterations` is; the blits
        are those of `BlurLog` with the iteration count clamped to [0, 10]. */
    method Blur(src: Handle, nIterations: int)
      requires IsLive(src)
      modifies this`textures, this`log
      ensures var s := old(textures)[src];
        textures == old(textures) + [s.(temporary := true, live := false), s.(temporary := true, live := false)]
      ensures log == old(log) + BlurLog(src, |old(textures)|, |old(textures)| + 1, Clamp(nIterations, 0, MaxBlurIterations))
      ensures LiveTemporaries(textures) == LiveTemporaries(old(textures))
    {
      var s := textures[src];
      var tmp0 := GetTemporary(s.width, s.height, s.format);
      var tmp1 := GetTemporary(s.width, s.height, s.format);
      var iters := Clamp(nIterations, 0, MaxBlurIterations);
      ghost var a, b := tmp0, tmp1;
      ghost var log0, pool := log, textures;

      Blit(src, tmp0, None);
      for i := 0 to iters
        invariant tmp0 == a && tmp1 == b && textures == pool
        invariant log == log0 + [BlitCall(src, a, None)] + BlurPasses(a, b, i)
      {
        for pass := BlurHorizontalPass to BlurVerticalPass + 1
          invariant textures == pool
          invariant if pass == BlurVerticalPass then tmp0 == b && tmp1 == a else tmp0 == a && tmp1 == b
          invariant log == log0 + [BlitCall(src, a, None)] + BlurPasses(a, b, i) + BlurRound(a, b)[..pass - BlurHorizontalPass]
        {
          Blit(tmp0, tmp1, Some(pass));
          tmp0, tmp1 := tmp1, tmp0;
        }
      }
      Blit(tmp0, src, None);

      ReleaseTemporary(tmp0);
      ReleaseTemporary(tmp1);
      ghost var added := [s.(temporary := true, live := false), s.(temporary := true, live := false)];
      assert textures == old(textures) + added;
      AppendReleased(old(textures), added);
    }

    /** Down-samples `src` by `lod` halvings and masks the result.  The
        temporaries it acquires are those of `DownSampleTemporaries` (a
        negative lod counts as zero halvings): all are released but the
        returned mask, the last one.  The blits are those of
        `DownSampleLog`. */
    method DownSample(src: Handle, lod: int) returns (mask: Handle)
      requires IsLive(src)
      modifies this`textures, this`log
      ensures mask == MaskHandle(|old(textures)|, Levels(lod))
      ensures textures == old(textures) + DownSampleTemporaries(old(textures)[src], Levels(lod))
      ensures log == old(log) + DownSampleLog(src, |old(textures)|, Levels(lod))
      ensures LiveTemporaries(textures) == LiveTemporaries(old(textures)) + {mask}
    {
      ghost var base := |textures|;
      ghost var log0 := log;
      var s := textures[src];
      var dst := GetTemporary(s.width, s.height, s.format);
      Blit(src, dst, None);

      var i := 0;
      while i < lod
        invariant 0 <= i <= Levels(lod) && dst == base + i
        invariant textures == old(textures) + Released(s, i) + [Rung(s, i, true)]
        invariant log == log0 + [BlitCall(src, base, None)] + Halvings(base, i)
      {
        var d := textures[dst];
        var tmp := GetTemporary(ShiftRight(d.width, 1), ShiftRight(d.height, 1), d.format);
        Blit(dst, tmp, Some(DownSamplePass));
        ReleaseTemporary(dst);
        assert ShiftRight(d.width, 1) == ShiftRight(s.width, i + 1);
        assert ShiftRight(d.height, 1) == ShiftRight(s.height, i + 1);
        assert textures == old(textures) + Released(s, i + 1) + [Rung(s, i + 1, true)];
        assert Halvings(base, i + 1) == Halvings(base, i) + [BlitCall(dst, tmp, Some(DownSamplePass))];
        dst := tmp;
        i := i + 1;
      }

      var d := textures[dst];
      mask := GetTemporary(d.width, d.height, d.format);
      Blit(dst, mask, Some(MaskPass));
      ReleaseTemporary(dst);
      ghost var released := Released(s, i + 1);
      assert textures == old(textures) + released + [Rung(s, i, true)];
      forall k | 0 <= k < |released|
        ensures !released[k].live
      {
        ReleasedAt(s, i + 1, k);
      }
      AppendReleasedThenLive(old(textures), released, Rung(s, i, true));
    }

    /** One frame.  Every temporary acquired is released before returning, on
        the debug path and off it, so the live temporaries are as they were;
        the temporaries are those of `FrameTemporaries` and the blits those of
        `FrameLog`.  Off the debug path the blurred mask is bound as the blur
        texture before the composite blit. */
    method OnRenderImage(src: Handle, dst: Handle)
      requires IsLive(src) && IsLive(dst) && src != dst
      modifies this`textures, this`log, this`blurTex
      ensures textures == old(textures) + FrameTemporaries(old(textures)[src], Levels(blurDownSample))
      ensures LiveTemporaries(textures) == LiveTemporaries(old(textures))
      ensures log == old(log) + FrameLog(src, dst, |old(textures)|, Levels(blurDownSample),
                                         Clamp(blurIterations, 0, MaxBlurIterations), debug, bloomType)
      ensures blurTex == if debug then old(blurTex) else Some(MaskHandle(|old(textures)|, Levels(blurDownSample)))
    {
      ghost var log0, s, n := log, textures[src], Levels(blurDownSample);
      ghost var base, rounds := |textures|, Clamp(blurIterations, 0, MaxBlurIterations);
      var downSampled := DownSample(src, blurDownSample);
      ghost var downLog := DownSampleLog(src, base, n);
      assert log == log0 + downLog;
      Blur(downSampled, blurIterations);
      ghost var last := if debug then BlitCall(downSampled, dst, None) else BlitCall(src, dst, Some(CompositePass(bloomType)));
      assert log0 + FrameLog(src, dst, base, n, rounds, debug, bloomType) == log + [last];

      if debug {
        Blit(downSampled, dst, None);
        ReleaseTemporary(downSampled);
      } else {
        blurTex := Some(downSampled);
        Blit(src, dst, Some(CompositePass(bloomType)));
        ReleaseTemporary(downSampled);
      }
      FrameTable(old(textures), s, n);
      assert textures == old(textures) + FrameTemporaries(s, n);
      FrameKeepsLiveTemporaries(old(textures), s, n);
    }
  }
}
